=== FILE: README.md ===
# Snake game core in Dafny

This project models the simulation core of a browser Snake game, the
`SnakeGame` class of `game.js`, with every canvas call removed. The class's
mutable fields become one immutable `Game` value. Its operations become pure
functions from one `Game` to the next:

- the constructor and `reset`;
- the four guarded moves and `pause`;
- `updateLastAction`;
- the two boundary policies of `handleWallCollision`: reset on a walled board,
  wrap-around otherwise;
- the trail push and trim;
- `checkSelfCollision`;
- `checkFruitCollision` with its fruit re-roll;
- the tick `gameLoop`, composed from the steps above in the same order as the
  source;
- the `action` and `keyPush` command dispatchers;
- the configuration setters and the getters.

Modules:

- `SnakeGrid` (`grid.dfy`): cells, velocities, directions.
- `SnakeGame` (`game_state.dfy`): the state record, the constants, the
  constructor, `reset`, the setters and the getters.
- `SnakeControls` (`controls.dfy`): moves, pause and command dispatch.
- `SnakeFruit` (`fruit.dfy`): fruit placement and the re-roll loop.
- `SnakeTick` (`tick.dfy`): the steps of a tick and the tick itself.
- `SnakeProperties` (`properties.dfy`): lemmas that relate several operations.
- `SnakeFindings` (`findings.dfy`): the self-collision ordering bug, as written
  and corrected.

Modelling decisions:

- Rewards are integers in tenths. The constructor sets 0. Every tick starts
  with the -0.1 step cost (-1). A fruit pays +1 (+10). A reset costs -1 (-10).
- The start cell `INITIAL_PLAYER` is a constant, (5, 5). The constructor
  computes it once, from a board size that is always 10. `setTileCount` never
  updates it.
- `Math.random` is injected. A draw is the pair of values
  `Math.floor(Math.random() * span)` would give. `RandomFruit` maps a draw to
  a cell. `RerollFruit` runs the re-roll loop over a finite stream of draws.
- A tick takes the fruit cell the re-roll chose as a parameter `pick`. The
  requires only asks, for a tick that eats the fruit, that `pick` is a free
  in-range cell. On a board whose fruit range is not empty, those are exactly
  the cells the loop can stop at: every valid draw lands in range
  (`RandomFruit`), and every cell of the range is reached by some valid draw
  (`RandomFruitOnto`).
- The order of the source is kept:
  - `stopped` is sampled before the position update.
  - `lastAction` is committed after the position update and before the
    boundary policy.
  - The head is pushed onto the trail before the self-collision scan.
  - The scan's result is ignored, and the fruit check always runs.

Consequences of the code as written:

- A moving snake never advances: every tick that starts moving ends in a
  reset (see Findings).
- The lazy commit of `lastAction` cannot reverse the snake into its own neck.
  Both guards compare with the committed action, so `NotReversing` (the
  velocity is never the opposite of the committed action) is kept by every
  command and every tick. Two commands between ticks do interact: the second
  overrides the first unless it reverses the committed action
  (`SecondCommandWins`).
- A tick keeps the fruit off the trail. A reset does not re-roll the fruit,
  so a fruit on the start cell ends up under the new trail
  (`ResetMayCoverFruit`).
- Wrap-around sends any negative coordinate to the last cell and any
  coordinate past the board to 0. Agreement with arithmetic modulo the board
  size is guaranteed only for a coordinate at most one step outside the board
  (`SnakeTick.WrapCoord`); further out it holds for some coordinates and not
  for others.

## Model

| member | source | states |
|---|---|---|
| SnakeGame.Create | game.js:2-33 | the constructed game is stopped on the start cell of a 10-cell wrap-around board with a fixed tail, fruit on (1, 1), an empty trail, tail 4, no points, best score 0, no committed action and reward 0, and it satisfies every invariant |
| SnakeGame.Reset | game.js:55-70 | tail back to 4, no points, stopped, on the start cell, reward -1, no committed action, a one-cell trail on the start cell; best score, fruit, walls, fixed-tail flag and board size survive |
| SnakeControls.Move | game.js:72-98 | a move is ignored when it reverses the committed action, otherwise it sets the velocity to the unit vector; nothing else changes and the no-reversal invariant is kept |
| SnakeControls.Pause | game.js:296-299 | pausing zeroes the velocity and changes nothing else |
| SnakeControls.KeyCommand | game.js:255-264 | exactly the key codes 37, 38, 39, 40, 32 and 27 mean a command: 37 steers left, 38 up, 39 right, 40 down, 32 pauses and 27 resets |
| SnakeControls.KeyCodeOf | game.js:255-264 | every command has a key that issues it |
| SnakeControls.KeyCommandInverse | game.js:255-264 | each meaningful key code issues exactly one command, so the key mapping is a bijection |
| SnakeControls.KeyPush | game.js:255-264 | the left, up, right and down arrows (37-40) act as the move in that direction, space (32) as pause, escape (27) as reset; any other key code leaves the game unchanged, and every key but escape changes at most the velocity |
| SnakeControls.ActionDirection | game.js:301-308 | exactly the names left, up, right and down steer, each in the direction it names |
| SnakeControls.ActionName | game.js:301-308 | every direction has the name that steers it |
| SnakeControls.DoAction | game.js:301-308 | "left", "up", "right" and "down" act as the move in that direction; an unknown name changes nothing, and only the velocity can change |
| SnakeFruit.RandomFruit | game.js:100-108 | a draw lands in the fruit range (interior of a walled board, whole wrap-around board) if and only if both of its values are in [0, span) |
| SnakeFruit.RandomFruitOnto | game.js:100-108 | every cell of the fruit range is selected by some valid draw, so the placement covers the whole range |
| SnakeFruit.RerollFruit | game.js:152-157 | the re-roll loop returns the first drawn cell that is off the trail; that cell is in range and free, and every earlier draw hit the trail; if no draw is free, the whole stream is spent |
| SnakeTick.UpdateLastAction | game.js:161-166 | a unit velocity becomes the matching committed action; a zero velocity leaves the game unchanged; only the action changes, and a valid velocity leaves no reversal |
| SnakeTick.WrapCoord | game.js:125-129 | a wrapped coordinate is on the board; an on-board coordinate is unchanged; any coordinate below the board goes to the last cell and any coordinate past it to the first, however far out; one step outside, this agrees with arithmetic modulo the board size |
| SnakeTick.HandleWallCollision | game.js:110-130 | walled: a player in the interior leaves the game unchanged, a player outside it resets the game, so the player ends in the interior or the game equals its reset; wrap-around: each coordinate of the player is wrapped as `WrapCoord` says, so the player ends on the board, nothing but the player changes, one step outside wraps modulo the board size |
| SnakeTick.TrimFront | game.js:234-236 | the shift loop keeps exactly the newest min(length, target) cells, in order |
| SnakeTick.PushTrail | game.js:232-237 | after the push and trim the trail has exactly min(length + 1, target) cells, the newest cells of the old trail followed by the new head, so only the cells over the target are dropped |
| SnakeTick.UpdateTrail | game.js:232-237 | a tick that started stopped leaves the game alone; otherwise only the trail changes: it has min(length + 1, tail) cells and ends with the player |
| SnakeTick.UpdateTrailKeepsNewest | game.js:232-237 | a moving tick's trail is the newest cells of the old trail followed by the player, so only the cells over the tail length are dropped |
| SnakeTick.CheckSelfCollision | game.js:133-144 | a stopped snake is never checked; a moving one resets exactly when its head is on a trail cell, and the flag reports it |
| SnakeTick.CheckFruitCollision | game.js:146-159 | on a hit: one more point, best score raised to match, tail one longer if and only if it is not fixed, reward +1, next fruit in range and off the trail; otherwise nothing changes; score consistency and fruit-off-trail are kept |
| SnakeTick.Tick | game.js:212-253 | a tick's reward is the step cost, the fruit reward or the reset cost, and it is the fruit reward exactly when the head meets the fruit; the configuration is untouched |
| SnakeGame.SetWalls | game.js:318-320 | the board's wall mode becomes the one set and no other field changes; both invariants are kept |
| SnakeGame.SetTileCount | game.js:322-325 | the board size read back is the size set and no other field changes; both invariants are kept |
| SnakeGame.SetFixedTail | game.js:327-329 | the fixed-tail flag becomes the one set and no other field changes; both invariants are kept |
| SnakeGame.ClearTopScore | game.js:331-333 | the best score becomes 0 and no other field changes; the structural invariant is kept, and score consistency holds afterwards exactly when the score is 0 |
| SnakeProperties.ResetForgetsRun | game.js:55-70 | a reset depends only on the settings and best score, and is idempotent |
| SnakeProperties.PauseIdempotent | game.js:296-299 | pausing twice equals pausing once |
| SnakeProperties.CommandPreservesInvariants | game.js:55-98 | steering, pausing and resetting keep the structural invariant and the best score at or above the score |
| SnakeProperties.KeyPushPreservesInvariants | game.js:255-264 | every key press keeps both invariants |
| SnakeProperties.SecondCommandWins | game.js:72-98 | of two steering commands between ticks the second wins unless it reverses the committed action, in which case the first stands |
| SnakeProperties.TileCountRoundTrip | game.js:322-325 | setting the board size and reading it back gives the size set; writing back the size read changes nothing |
| SnakeProperties.StartCellIgnoresTileCount | game.js:7-10 | after any change of board size a reset still puts the snake on (5, 5) |
| SnakeProperties.SettersPreserveInvariants | game.js:318-333 | the walls, fixed-tail and board-size setters keep both invariants; clearing the best score keeps the structural one and breaks score consistency exactly when points are above zero |
| SnakeProperties.ResetMayCoverFruit | game.js:55-70 | a reset with the fruit on the start cell leaves the fruit under the new trail |
| SnakeProperties.AdvanceShape | game.js:213-229 | the first half of a tick either resets the run or keeps trail, velocity, tail and score with the step reward, and never touches the settings |
| SnakeProperties.FreshPushIsDoubleStart | game.js:232-233 | a run reset by a wall on a moving tick still gets the start cell pushed, giving a two-cell trail on the start cell |
| SnakeProperties.BeforeFruitShape | game.js:212-244 | before its fruit check, a tick that started stopped is the position update and boundary policy alone; a tick that started moving has always reset |
| SnakeProperties.TickPreservesValid | game.js:212-253 | every tick keeps the tail at least 4, the trail within the tail, the velocity a unit or zero, and no reversal |
| SnakeProperties.TickPreservesScore | game.js:212-253 | every tick keeps the best score at or above the score |
| SnakeProperties.TickPreservesFruitOffTrail | game.js:212-253 | a fruit off the trail before a tick is off the trail after it |
| SnakeProperties.WrapTickStaysOnBoard | game.js:124-130 | on a wrap-around board a tick ends on the board or on the start cell; on boards wider than 5 cells, always on the board |
| SnakeProperties.WalledTickStaysInside | game.js:110-116 | on a walled board a tick ends in the interior or stopped on the start cell of a fresh run |
| SnakeProperties.StoppedTickKeepsTrail | game.js:232-237 | a tick that starts stopped keeps the trail, unless a wall reset replaces it by the one-cell start trail |
| SnakeProperties.WalledExitResets | game.js:110-116 | when the fruit is not on the start cell, leaving a walled board's interior pays the reset reward, zeroes the score, keeps the best score and stops the snake on the start cell; a snake that was moving ends with the start cell twice on its trail |
| SnakeProperties.WalledExitEatsStartFruit | game.js:110-116 | when the fruit is on the start cell, leaving a walled board's interior resets the run onto the fruit and the same tick eats it: fruit reward, one point, best score at least 1, stopped on the start cell |
| SnakeFindings.MovingTickAlwaysResets | game.js:232-244 | as written, every tick that starts moving ends stopped on the start cell with no committed action, at most one point and never the plain step reward |
| SnakeFindings.OpeningMoveResets | game.js:232-244 | as written, steering any way from a fresh run whose fruit is not on the start cell and ticking returns the snake to the start cell with the reset reward |
| SnakeFindings.CheckSelfCollisionIntended | game.js:133-144 | corrected: a moving snake resets exactly when its head is on the body behind the head |
| SnakeFindings.TickIntended | game.js:212-253 | corrected tick: its reward is one of the three rewards and the configuration is untouched |
| SnakeFindings.IntendedTickAdvances | game.js:212-253 | corrected: a moving snake on a wrap-around board whose next head is off its body and off the fruit moves one step, keeps its velocity, commits its direction, grows its trail by the head and pays only the step cost |
| SnakeFindings.IntendedTickDetectsBite | game.js:133-144 | corrected: a moving snake whose next head lands on its body resets |
| SnakeFindings.OpeningMoveAdvances | game.js:212-253 | corrected: steering any way from a fresh run on a wrap-around board wider than six cells, with no fruit on the cell next to the start cell in that direction, moves the snake one cell that way |

## Left out

- Drawing is not modelled: `drawSnake`, `drawFruit`, `drawUI`, the `fillRect` calls in `reset`, `handleWallCollision` and `gameLoop`, and the pixel size `GRID_SIZE`, which the constructor and `setTileCount` compute from the board size. None of it changes a field the simulation reads.
- Image loading, `setup`, `start`, `stop` and the interval timer are left out. They are timer and DOM plumbing; a tick is one call of `Tick`.
- `setupKeyboard`, `evt.preventDefault` and the module-level usage code at the end of the file are left out. They are DOM wiring; `KeyPush` takes the key code directly.
- The getters `getPlayer`, `getFruit`, `getTrail` and `getTileCount` are plain field reads without contracts. The trail is a value, so the defensive copy is the trail itself.
- `Math.random` is not modelled; its draws are injected. No claim is made that the re-roll loop terminates, because that depends on the random source.
- JavaScript numbers are modelled as unbounded integers: points, tail and board size never lose precision, and a non-integer board size cannot be expressed.
- SnakeControls.KeyPush: an Escape press before `setup` has run (the key listener is registered at once, `setup` only after both images load) makes the source's `reset` throw on the missing canvas context before any field changes, so the game stays as it was; the model resets it. The canvas is not part of the model.
- SnakeFruit.RerollFruit: requires every draw to be in [0, span). That excludes boards whose fruit range is empty (walled boards of at most 2 cells, wrap-around boards of at most 0 cells), where the span is not positive and the source's draws fall outside the fruit range.
- SnakeTick.Tick: the injected fruit cell must be free and in range whenever the tick eats the fruit. Two cases are not modelled. When the range is non-empty but every cell is on the trail, the source's re-roll loop never ends. When the range is empty (walled boards of at most 2 cells, wrap-around boards of at most 0 cells), the source's draw gives a cell outside the range, (1, 1) or (0, 0) for a zero span, and its loop stops as soon as that cell is off the trail; no `pick` meets the requires there.
- SnakeProperties.WrapTickStaysOnBoard: claims the board only on boards wider than 5 cells, because a reset on a smaller board puts the snake on (5, 5), off the board.

## Findings

| source | as written | input that shows it | evidently intended | confidence | as-written member | corrected member |
|---|---|---|---|---|---|---|
| game.js:232-244 | the new head is pushed onto the trail (line 233) before `checkSelfCollision` scans the whole trail for the head (lines 136-137), so the scan always finds the head itself | a fresh game after `moveRight()`, then one tick: the snake is back on (5, 5), stopped, with reward -1, instead of on (6, 5) | scan only the body behind the new head, so a snake moves on until its head lands on its body | high; not executed | SnakeFindings.MovingTickAlwaysResets | SnakeFindings.IntendedTickAdvances |

=== FILE: controls.dfy ===
/**
 Steering, pausing, and the two command dispatchers: named actions for scripted
 play and key codes for the keyboard.
 */
module SnakeControls {
  import opened Options
  import opened SnakeGrid
  import opened SnakeGame

  /** `moveUp`, `moveDown`, `moveLeft` and `moveRight`: steer in `d` unless that
      would reverse the last committed move. Only the velocity changes, and the
      no-reversal invariant survives. */
  function Move(g: Game, d: Direction): (r: Game)
    ensures g.lastAction == Moved(Opposite(d)) ==> r == g
    ensures g.lastAction != Moved(Opposite(d)) ==> r.velocity == Unit(d)
    ensures r == g.(velocity := r.velocity)
    ensures NotReversing(g) ==> NotReversing(r)
    ensures Valid(g) ==> Valid(r)
  {
    if g.lastAction == Moved(Opposite(d)) then g else g.(velocity := Unit(d))
  }

  /** Stops the snake and touches nothing else. */
  function Pause(g: Game): (r: Game)
    ensures r.velocity == Zero
    ensures r == g.(velocity := Zero)
    ensures Valid(g) ==> Valid(r)
  {
    g.(velocity := Zero)
  }

  /** What an input source can ask of the game. */
  datatype Command = Steer(dir: Direction) | PauseGame | ResetGame

  function Apply(g: Game, c: Command): Game
  {
    match c
    case Steer(d) => Move(g, d)
    case PauseGame => Pause(g)
    case ResetGame => Reset(g)
  }

  /** The keyboard mapping: arrow keys steer, space pauses, escape resets, and
      every other key code means nothing. */
  function KeyCommand(code: int): (c: Option<Command>)
    ensures c.None? <==> code !in {37, 38, 39, 40, 32, 27}
    ensures code == 37 ==> c == Some(Steer(Left))
    ensures code == 38 ==> c == Some(Steer(Up))
    ensures code == 39 ==> c == Some(Steer(Right))
    ensures code == 40 ==> c == Some(Steer(Down))
    ensures code == 32 ==> c == Some(PauseGame)
    ensures code == 27 ==> c == Some(ResetGame)
  {
    match code
    case 37 => Some(Steer(Left))
    case 38 => Some(Steer(Up))
    case 39 => Some(Steer(Right))
    case 40 => Some(Steer(Down))
    case 32 => Some(PauseGame)
    case 27 => Some(ResetGame)
    case _ => None
  }

  /** The key that issues a command. */
  function KeyCodeOf(c: Command): (code: int)
    ensures KeyCommand(code) == Some(c)
  {
    match c
    case Steer(Left) => 37
    case Steer(Up) => 38
    case Steer(Right) => 39
    case Steer(Down) => 40
    case PauseGame => 32
    case ResetGame => 27
  }

  /** Each key that means something means exactly one command. */
  lemma KeyCommandInverse(code: int)
    ensures KeyCommand(code).Some? ==> KeyCodeOf(KeyCommand(code).value) == code
  {
  }

  /** `keyPush`: the arrow keys steer left, up, right and down, space pauses,
      escape resets, and unknown codes leave the game alone. Only escape
      changes more than the velocity. */
  function KeyPush(g: Game, code: int): (r: Game)
    ensures KeyCommand(code).None? ==> r == g
    ensures KeyCommand(code).Some? ==> r == Apply(g, KeyCommand(code).value)
    ensures code == 37 ==> r == Move(g, Left)
    ensures code == 38 ==> r == Move(g, Up)
    ensures code == 39 ==> r == Move(g, Right)
    ensures code == 40 ==> r == Move(g, Down)
    ensures code == 32 ==> r == Pause(g)
    ensures code == 27 ==> r == Reset(g)
    ensures code != 27 ==> r == g.(velocity := r.velocity)
  {
    match KeyCommand(code)
    case Some(c) => Apply(g, c)
    case None => g
  }

  /** The action names accepted by `action`. */
  function ActionDirection(act: string): (d: Option<Direction>)
    ensures d.None? <==> act !in {"left", "up", "right", "down"}
    ensures act == "left" ==> d == Some(Left)
    ensures act == "up" ==> d == Some(Up)
    ensures act == "right" ==> d == Some(Right)
    ensures act == "down" ==> d == Some(Down)
  {
    if act == "left" then Some(Left)
    else if act == "up" then Some(Up)
    else if act == "right" then Some(Right)
    else if act == "down" then Some(Down)
    else None
  }

  /** The name under which `action` accepts a direction. */
  function ActionName(d: Direction): (act: string)
    ensures ActionDirection(act) == Some(d)
  {
    match d
    case Left => "left"
    case Up => "up"
    case Right => "right"
    case Down => "down"
  }

  /** `action`: steers by name; an unknown name leaves the game alone, and no
      name pauses or resets. */
  function DoAction(g: Game, act: string): (r: Game)
    ensures ActionDirection(act).None? ==> r == g
    ensures ActionDirection(act).Some? ==> r == Move(g, ActionDirection(act).value)
    ensures act == "left" ==> r == Move(g, Left)
    ensures act == "up" ==> r == Move(g, Up)
    ensures act == "right" ==> r == Move(g, Right)
    ensures act == "down" ==> r == Move(g, Down)
    ensures r == g.(velocity := r.velocity)
  {
    match ActionDirection(act)
    case Some(d) => Move(g, d)
    case None => g
  }
}

=== FILE: findings.dfy ===
/**
 The order of the trail update and the self-collision scan. The game pushes the
 new head onto the trail and then scans the whole trail for the head, so the
 scan always finds the head itself and every tick of a moving snake ends in a
 reset. The first part of this module states that behaviour; the second scans
 only the body behind the new head, which is the check a snake game means,
 and proves that a snake then moves on until it really bites itself.
 */
module SnakeFindings {
  import opened SnakeGrid
  import opened SnakeGame
  import opened SnakeControls
  import opened SnakeTick
  import SnakeProperties

  /** As written: a tick that starts moving always ends stopped on the start
      cell of a fresh run, with at most the one point a fruit lying on the
      start cell gives, and never with the plain step reward. */
  lemma MovingTickAlwaysResets(g: Game, pick: Point)
    requires g.velocity != Zero && g.tail >= 1
    ensures TickPickFits(g, pick) ==> var r := Tick(g, pick);
      && r.player == INITIAL_PLAYER && r.velocity == Zero && r.lastAction == NoAction
      && r.points <= 1 && r.reward != REWARD_STEP
  {
    SnakeProperties.BeforeFruitShape(g);
  }

  /** As written, on the opening move of a run: steering any way from the
      start cell of a fresh run and ticking puts the snake back on the start
      cell, stopped, with the reset reward, instead of one cell further on. */
  lemma OpeningMoveResets(h: Game, d: Direction, pick: Point)
    requires h.fruit != INITIAL_PLAYER
    ensures var g := Move(Reset(h), d);
      TickPickFits(g, pick)
      && Tick(g, pick).player == INITIAL_PLAYER
      && Tick(g, pick).velocity == Zero
      && Tick(g, pick).reward == REWARD_RESET
  {
    var g := Move(Reset(h), d);
    assert g.velocity == Unit(d) && g.tail == INITIAL_TAIL;
    SnakeProperties.BeforeFruitShape(g);
    MovingTickAlwaysResets(g, pick);
  }

  /** The trail behind the head: every cell but the newest. */
  function Body(t: seq<Point>): (b: seq<Point>)
    ensures |t| >= 1 ==> t == b + [t[|t| - 1]]
    ensures |t| == 0 ==> b == []
  {
    if |t| == 0 then [] else t[..|t| - 1]
  }

  /** The self-collision check as intended: a moving head that lies on the
      body behind it resets the run. */
  function CheckSelfCollisionIntended(g: Game): (res: (bool, Game))
    ensures g.velocity == Zero ==> res == (false, g)
    ensures g.velocity != Zero ==> (res.0 <==> g.player in Body(g.trail))
    ensures res.1 == if res.0 then Reset(g) else g
  {
    if g.velocity != Zero && g.player in Body(g.trail) then (true, Reset(g)) else (false, g)
  }

  /** A tick up to the fruit check, with the intended self-collision check. */
  function BeforeFruitIntended(g: Game): Game
  {
    var stopped := g.velocity == Zero;
    CheckSelfCollisionIntended(UpdateTrail(Advance(g), stopped)).1
  }

  predicate TickIntendedPickFits(g: Game, pick: Point)
  {
    FruitPickFits(BeforeFruitIntended(g), pick)
  }

  /** The tick as intended: the game loop with the intended self-collision
      check in place of the one that always fires. */
  function TickIntended(g: Game, pick: Point): (r: Game)
    requires TickIntendedPickFits(g, pick)
    ensures r.reward in {REWARD_STEP, REWARD_FRUIT, REWARD_RESET}
    ensures r.walls == g.walls && r.fixedTail == g.fixedTail && r.tileCount == g.tileCount
  {
    CheckFruitCollision(BeforeFruitIntended(g), pick)
  }

  /** The cell a moving snake's head reaches on a wrap-around board. */
  function NextHead(g: Game): Point
  {
    Wrap(Add(g.player, g.velocity), g.tileCount)
  }

  /** The first half of an intended tick on a wrap-around board moves the head
      and commits the direction; nothing resets. */
  lemma WrapAdvance(g: Game, d: Direction)
    requires !g.walls && g.velocity == Unit(d)
    ensures Advance(g) == g.(reward := REWARD_STEP, player := NextHead(g), lastAction := Moved(d))
  {
    var moved := g.(reward := REWARD_STEP).(player := Add(g.player, g.velocity));
    var u := UpdateLastAction(moved);
    assert u.lastAction == Moved(d);
    assert Advance(g) == HandleWallCollision(u);
  }

  /** As intended: on a wrap-around board a moving snake whose next head is off
      its body and off the fruit moves on — head one step further, same
      velocity, direction committed, trail grown by the head, step reward. */
  lemma IntendedTickAdvances(g: Game, d: Direction, pick: Point)
    requires !g.walls && g.tail >= 1 && g.velocity == Unit(d)
    requires NextHead(g) !in Body(PushTrail(g.trail, NextHead(g), g.tail))
    requires NextHead(g) != g.fruit
    ensures TickIntendedPickFits(g, pick)
    ensures var r := TickIntended(g, pick);
      && r.player == NextHead(g) && r.velocity == g.velocity && r.lastAction == Moved(d)
      && r.trail == PushTrail(g.trail, NextHead(g), g.tail)
      && r.reward == REWARD_STEP && r.points == g.points && r.pointsMax == g.pointsMax
  {
    WrapAdvance(g, d);
    var a := Advance(g);
    var p := UpdateTrail(a, false);
    assert p.player == NextHead(g);
    assert CheckSelfCollisionIntended(p) == (false, p);
    assert BeforeFruitIntended(g) == p;
  }

  /** As intended: a moving snake whose next head lands on its body resets. */
  lemma IntendedTickDetectsBite(g: Game, d: Direction, pick: Point)
    requires !g.walls && g.tail >= 1 && g.velocity == Unit(d)
    requires NextHead(g) in Body(PushTrail(g.trail, NextHead(g), g.tail))
    ensures TickIntendedPickFits(g, pick) ==> var r := TickIntended(g, pick);
      r.player == INITIAL_PLAYER && r.velocity == Zero && r.lastAction == NoAction
  {
    WrapAdvance(g, d);
    var a := Advance(g);
    var p := UpdateTrail(a, false);
    assert p.player == NextHead(g);
    assert CheckSelfCollisionIntended(p) == (true, Reset(p));
  }

  /** The trail of a fresh run after its first push: the start cell, then the
      new head, which is off the body as long as it is not the start cell. */
  lemma OpeningPush(next: Point)
    ensures PushTrail([INITIAL_PLAYER], next, INITIAL_TAIL) == [INITIAL_PLAYER, next]
    ensures next != INITIAL_PLAYER ==> next !in Body([INITIAL_PLAYER, next])
  {
    assert [INITIAL_PLAYER] + [next] == [INITIAL_PLAYER, next];
    assert Body([INITIAL_PLAYER, next]) == [INITIAL_PLAYER];
  }

  /** As intended, on the opening move of a run on a wrap-around board of
      more than six cells: steering any way from the start cell and ticking
      moves the snake one cell that way, as long as the fruit is elsewhere. */
  lemma OpeningMoveAdvances(h: Game, d: Direction, pick: Point)
    requires !h.walls && h.tileCount > 6
    requires h.fruit != Add(INITIAL_PLAYER, Unit(d))
    ensures var g := Move(Reset(h), d);
      TickIntendedPickFits(g, pick)
      && TickIntended(g, pick).player == Add(INITIAL_PLAYER, Unit(d))
      && TickIntended(g, pick).velocity == Unit(d)
  {
    var g := Move(Reset(h), d);
    var next := Add(INITIAL_PLAYER, Unit(d));
    assert g.velocity == Unit(d) && g.trail == [INITIAL_PLAYER] && g.tail == INITIAL_TAIL;
    assert NextHead(g) == next;
    OpeningPush(next);
    IntendedTickAdvances(g, d, pick);
  }
}

=== FILE: fruit.dfy ===
/**
 Fruit placement. The random source is injected: a draw is the pair of values
 `Math.floor(Math.random() * span)` would have produced, and the re-roll loop
 runs over a finite stream of such draws.
 */
module SnakeFruit {
  import opened Options
  import opened SnakeGrid

  /** How many cells per axis a fruit may land on. */
  function FruitSpan(walls: bool, tileCount: int): int
  {
    if walls then tileCount - 2 else tileCount
  }

  /** The cells a fruit may land on: the interior of a walled board, the whole
      of a wrap-around board. */
  predicate InFruitRange(walls: bool, tileCount: int, c: Point)
  {
    if walls then InBox(c, 1, tileCount - 2) else InBox(c, 0, tileCount - 1)
  }

  /** A draw the random source can produce: both values in `[0, span)`. */
  predicate ValidDraw(walls: bool, tileCount: int, d: Point)
  {
    0 <= d.x < FruitSpan(walls, tileCount) && 0 <= d.y < FruitSpan(walls, tileCount)
  }

  /** A cell a new fruit may take: in range and off the snake. */
  predicate FreeCell(walls: bool, tileCount: int, trail: seq<Point>, c: Point)
  {
    InFruitRange(walls, tileCount, c) && c !in trail
  }

  /** `randomFruit`: the cell a draw selects. Exactly the valid draws land in
      range, so the placement covers the whole range and nothing outside it. */
  function RandomFruit(walls: bool, tileCount: int, d: Point): (c: Point)
    ensures InFruitRange(walls, tileCount, c) <==> ValidDraw(walls, tileCount, d)
  {
    if walls then Point(1 + d.x, 1 + d.y) else Point(d.x, d.y)
  }

  /** Every cell of the fruit range is selected by some valid draw, so
      `RandomFruit` maps the valid draws onto the range. */
  lemma RandomFruitOnto(walls: bool, tileCount: int, c: Point)
    requires InFruitRange(walls, tileCount, c)
    ensures exists d :: ValidDraw(walls, tileCount, d) && RandomFruit(walls, tileCount, d) == c
  {
    var d := if walls then Point(c.x - 1, c.y - 1) else c;
    assert ValidDraw(walls, tileCount, d) && RandomFruit(walls, tileCount, d) == c;
  }

  /** The placement loop of a fruit hit: draw, and draw again while the cell is
      on the trail. It returns the first free cell of the stream and how many
      draws it took, or `None` with the whole stream spent when every draw hit
      the snake (the loop of the game would still be spinning). */
  method RerollFruit(walls: bool, tileCount: int, trail: seq<Point>, draws: seq<Point>)
    returns (fruit: Option<Point>, tries: nat)
    requires forall i :: 0 <= i < |draws| ==> ValidDraw(walls, tileCount, draws[i])
    ensures tries <= |draws|
    ensures fruit.Some? ==> 1 <= tries && fruit.value == RandomFruit(walls, tileCount, draws[tries - 1])
    ensures fruit.Some? ==> FreeCell(walls, tileCount, trail, fruit.value)
    ensures fruit.None? ==> tries == |draws|
    ensures forall i :: 0 <= i < |draws| && i < (if fruit.Some? then tries - 1 else tries) ==>
              RandomFruit(walls, tileCount, draws[i]) in trail
  {
    var i := 0;
    while i < |draws|
      invariant 0 <= i <= |draws|
      invariant forall j :: 0 <= j < i ==> RandomFruit(walls, tileCount, draws[j]) in trail
    {
      var c := RandomFruit(walls, tileCount, draws[i]);
      if c !in trail {
        return Some(c), i + 1;
      }
      i := i + 1;
    }
    return None, |draws|;
  }
}

=== FILE: game_state.dfy ===
/**
 The state of one Snake session, its constants, the constructor, `reset`, and
 the configuration setters and getters. Every operation is a pure function from
 one `Game` value to the next.
 */
module SnakeGame {
  import opened SnakeGrid

  /** Trail length a fresh run aims for. */
  const INITIAL_TAIL: nat := 4

  /** Board side length at construction. */
  const INITIAL_TILE_COUNT: int := 10

  /** Start cell, computed once from the board size at construction; later
      changes of the board size do not move it. */
  const INITIAL_PLAYER: Point := Point(INITIAL_TILE_COUNT / 2, INITIAL_TILE_COUNT / 2)

  /** The reward signal, in tenths: the constructor's 0, the per-tick cost of
      -0.1, the +1 for eating a fruit and the -1 for a reset. */
  const REWARD_NONE: int := 0
  const REWARD_STEP: int := -1
  const REWARD_FRUIT: int := 10
  const REWARD_RESET: int := -10

  /** The last direction a tick committed, or none since the last reset. */
  datatype Action = NoAction | Moved(dir: Direction)

  datatype Game = Game(
    player: Point,
    velocity: Point,
    fruit: Point,
    trail: seq<Point>,     // oldest cell first, head last
    tail: nat,             // the length the trail is trimmed to
    points: nat,
    pointsMax: nat,
    lastAction: Action,
    walls: bool,           // walled board (reset on leaving) or wrap-around
    fixedTail: bool,       // whether eating leaves the tail length alone
    tileCount: int,
    reward: int)

  /** The velocity never points straight back along the last committed move. */
  predicate NotReversing(g: Game)
  {
    g.lastAction.Moved? ==> g.velocity != Unit(Opposite(g.lastAction.dir))
  }

  /** The structural invariant every operation keeps. */
  predicate Valid(g: Game)
  {
    && g.tail >= INITIAL_TAIL
    && |g.trail| <= g.tail
    && IsVelocity(g.velocity)
    && NotReversing(g)
  }

  /** The session best is at least the current score. */
  predicate ScoreConsistent(g: Game)
  {
    g.points <= g.pointsMax
  }

  /** The fruit sits on no trail cell. */
  predicate FruitOffTrail(g: Game)
  {
    g.fruit !in g.trail
  }

  /** The freshly constructed game, before its first reset. */
  function Create(): (g: Game)
    ensures Valid(g) && ScoreConsistent(g) && FruitOffTrail(g)
    ensures g.velocity == Zero && g.player == INITIAL_PLAYER && g.tileCount == INITIAL_TILE_COUNT
    ensures !g.walls && g.fixedTail && g.reward == REWARD_NONE
    ensures g.fruit == Point(1, 1) && g.trail == [] && g.tail == INITIAL_TAIL
    ensures g.points == 0 && g.pointsMax == 0 && g.lastAction == NoAction
  {
    Game(
      player := INITIAL_PLAYER,
      velocity := Zero,
      fruit := Point(1, 1),
      trail := [],
      tail := INITIAL_TAIL,
      points := 0,
      pointsMax := 0,
      lastAction := NoAction,
      walls := false,
      fixedTail := true,
      tileCount := INITIAL_TILE_COUNT,
      reward := REWARD_NONE)
  }

  /** Starts a new run: the snake is back on the start cell, stopped, one cell
      long, with no score; the best score, the fruit and the configuration
      survive. */
  function Reset(g: Game): (r: Game)
    ensures r.tail == INITIAL_TAIL && r.points == 0 && r.velocity == Zero
    ensures r.player == INITIAL_PLAYER && r.reward == REWARD_RESET
    ensures r.lastAction == NoAction && r.trail == [r.player]
    ensures r.pointsMax == g.pointsMax && r.fruit == g.fruit
    ensures r.walls == g.walls && r.fixedTail == g.fixedTail && r.tileCount == g.tileCount
    ensures Valid(r) && ScoreConsistent(r)
  {
    g.(tail := INITIAL_TAIL,
       points := 0,
       velocity := Zero,
       player := INITIAL_PLAYER,
       reward := REWARD_RESET,
       lastAction := NoAction,
       trail := [INITIAL_PLAYER])
  }

  /** Chooses between a walled and a wrap-around board; the run goes on. */
  function SetWalls(g: Game, on: bool): (r: Game)
    ensures r.walls == on
    ensures Valid(g) ==> Valid(r)
    ensures ScoreConsistent(g) ==> ScoreConsistent(r)
    ensures r == g.(walls := r.walls)
  {
    g.(walls := on)
  }

  /** Changes the board size; the start cell stays where the constructor put
      it. */
  function SetTileCount(g: Game, size: int): (r: Game)
    ensures GetTileCount(r) == size
    ensures Valid(g) ==> Valid(r)
    ensures ScoreConsistent(g) ==> ScoreConsistent(r)
    ensures r == g.(tileCount := r.tileCount)
  {
    g.(tileCount := size)
  }

  /** Chooses whether eating grows the tail. */
  function SetFixedTail(g: Game, on: bool): (r: Game)
    ensures r.fixedTail == on
    ensures Valid(g) ==> Valid(r)
    ensures ScoreConsistent(g) ==> ScoreConsistent(r)
    ensures r == g.(fixedTail := r.fixedTail)
  {
    g.(fixedTail := on)
  }

  /** Forgets the best score; the only operation that can leave it below the
      current score. */
  function ClearTopScore(g: Game): (r: Game)
    ensures r.pointsMax == 0
    ensures Valid(g) ==> Valid(r)
    ensures ScoreConsistent(r) <==> g.points == 0
    ensures r == g.(pointsMax := r.pointsMax)
  {
    g.(pointsMax := 0)
  }

  function GetPlayer(g: Game): Point
  {
    g.player
  }

  function GetFruit(g: Game): Point
  {
    g.fruit
  }

  /** The trail is a value, so the copy handed out is the trail itself. */
  function GetTrail(g: Game): seq<Point>
  {
    g.trail
  }

  function GetTileCount(g: Game): int
  {
    g.tileCount
  }
}

=== FILE: grid.dfy ===
/**
 Cells of the square board, velocities, and the four steering directions of the
 snake. Coordinates are unbounded integers: nothing clamps a position until the
 boundary policy of a tick does.
 */
module SnakeGrid {

  /** A board cell, or a velocity when read as a displacement. */
  datatype Point = Point(x: int, y: int)

  /** The velocity of a stopped snake. */
  const Zero: Point := Point(0, 0)

  /** Displaces `p` by `v`, one axis at a time. */
  function Add(p: Point, v: Point): Point
  {
    Point(p.x + v.x, p.y + v.y)
  }

  /** The four directions a snake can be steered in. */
  datatype Direction = Up | Down | Left | Right

  /** The unit velocity of a direction; `y` grows downwards, as on the canvas. */
  function Unit(d: Direction): (v: Point)
    ensures v != Zero
    ensures v.x == 0 || v.y == 0
    ensures -1 <= v.x <= 1 && -1 <= v.y <= 1
  {
    match d
    case Up => Point(0, -1)
    case Down => Point(0, 1)
    case Left => Point(-1, 0)
    case Right => Point(1, 0)
  }

  /** The direction a reversal would take. */
  function Opposite(d: Direction): (e: Direction)
    ensures e != d
    ensures Unit(e) == Point(-Unit(d).x, -Unit(d).y)
  {
    match d
    case Up => Down
    case Down => Up
    case Left => Right
    case Right => Left
  }

  /** The velocities the game ever holds: stopped, or one unit step. */
  predicate IsVelocity(v: Point)
  {
    v == Zero || v == Unit(Up) || v == Unit(Down) || v == Unit(Left) || v == Unit(Right)
  }

  /** Both coordinates of `p` lie in `[lo, hi]`. */
  predicate InBox(p: Point, lo: int, hi: int)
  {
    lo <= p.x <= hi && lo <= p.y <= hi
  }

  function Min(a: int, b: int): int
  {
    if a <= b then a else b
  }

  function Max(a: int, b: int): int
  {
    if a >= b then a else b
  }
}

=== FILE: option.dfy ===
/** A value that may be absent: a key code or action name that means nothing,
    or a fruit draw stream that runs dry. */
module Options {
  datatype Option<T> = None | Some(value: T)
}

=== FILE: properties.dfy ===
/**
 Properties of the game that relate several operations: what `reset` keeps and
 forgets, the invariants every command and every tick preserve, the two
 boundary policies seen through a whole tick, and the double-command case of
 the lazy commit of the last action.
 */
module SnakeProperties {
  import opened SnakeGrid
  import opened SnakeGame
  import opened SnakeControls
  import opened SnakeTick

  /** The settings and the best score: everything a reset keeps. */
  predicate SameSettings(g: Game, h: Game)
  {
    && g.pointsMax == h.pointsMax && g.fruit == h.fruit
    && g.walls == h.walls && g.fixedTail == h.fixedTail && g.tileCount == h.tileCount
  }

  /** A reset forgets the whole run: two games with the same settings reset to
      the same state, and resetting twice is resetting once. */
  lemma ResetForgetsRun(g: Game, h: Game)
    requires SameSettings(g, h)
    ensures Reset(g) == Reset(h)
    ensures Reset(Reset(g)) == Reset(g)
  {
  }

  /** Pausing twice is pausing once. */
  lemma PauseIdempotent(g: Game)
    ensures Pause(Pause(g)) == Pause(g)
  {
  }

  /** Every command keeps the structural invariant and the best score at or
      above the current one. */
  lemma CommandPreservesInvariants(g: Game, c: Command)
    ensures Valid(g) ==> Valid(Apply(g, c))
    ensures ScoreConsistent(g) ==> ScoreConsistent(Apply(g, c))
  {
  }

  /** So does every key press. */
  lemma KeyPushPreservesInvariants(g: Game, code: int)
    requires Valid(g) && ScoreConsistent(g)
    ensures Valid(KeyPush(g, code)) && ScoreConsistent(KeyPush(g, code))
  {
    if KeyCommand(code).Some? {
      CommandPreservesInvariants(g, KeyCommand(code).value);
    }
  }

  /** Two steering commands within one tick interval: the guard of both reads
      the same committed action, so the second overrides the first unless it
      reverses that committed action. In particular a pending move that is
      perpendicular to the committed one can be replaced by its own opposite. */
  lemma SecondCommandWins(g: Game, d: Direction, e: Direction)
    requires g.lastAction != Moved(Opposite(d))
    ensures g.lastAction != Moved(Opposite(e)) ==> Move(Move(g, d), e).velocity == Unit(e)
    ensures g.lastAction == Moved(Opposite(e)) ==> Move(Move(g, d), e).velocity == Unit(d)
  {
  }

  /** Setting the board size and reading it back gives the size set, and
      writing back the size read changes nothing. */
  lemma TileCountRoundTrip(g: Game, n: int)
    ensures GetTileCount(SetTileCount(g, n)) == n
    ensures SetTileCount(g, GetTileCount(g)) == g
  {
  }

  /** The start cell is fixed at construction: a reset after any change of the
      board size still puts the snake on (5, 5). */
  lemma StartCellIgnoresTileCount(g: Game, n: int)
    ensures Reset(SetTileCount(g, n)).player == Point(5, 5)
  {
  }

  /** The configuration setters keep both invariants; clearing the best score
      keeps the structural one and breaks the score one exactly when some
      points are on the board. */
  lemma SettersPreserveInvariants(g: Game, on: bool, n: int)
    requires Valid(g) && ScoreConsistent(g)
    ensures Valid(SetWalls(g, on)) && ScoreConsistent(SetWalls(g, on))
    ensures Valid(SetFixedTail(g, on)) && ScoreConsistent(SetFixedTail(g, on))
    ensures Valid(SetTileCount(g, n)) && ScoreConsistent(SetTileCount(g, n))
    ensures Valid(ClearTopScore(g))
    ensures ScoreConsistent(ClearTopScore(g)) <==> g.points == 0
  {
  }

  /** A reset does not re-roll the fruit, so when the fruit lies on the start
      cell a reset leaves it under the new one-cell trail. */
  lemma ResetMayCoverFruit(g: Game)
    requires g.fruit == INITIAL_PLAYER
    ensures !FruitOffTrail(Reset(g))
  {
  }

  /** A fresh run: the state a reset produces from it is itself. */
  predicate Fresh(g: Game)
  {
    g == Reset(g)
  }

  /** The first half of a tick either resets the run or keeps the trail, the
      velocity, the tail and the score; the settings are never touched. */
  lemma AdvanceShape(g: Game)
    ensures var a := Advance(g);
      && SameSettings(a, g)
      && (Fresh(a) || (a.velocity == g.velocity && a.trail == g.trail && a.tail == g.tail
                       && a.points == g.points && a.reward == REWARD_STEP))
  {
    var moved := g.(reward := REWARD_STEP).(player := Add(g.player, g.velocity));
    var u := UpdateLastAction(moved);
    assert Advance(g) == HandleWallCollision(u);
    assert u == moved.(lastAction := u.lastAction);
  }

  /** A fresh run that still moves on with a start cell pushed onto its trail. */
  lemma FreshPushIsDoubleStart(a: Game)
    requires Fresh(a)
    ensures UpdateTrail(a, false).trail == [INITIAL_PLAYER, INITIAL_PLAYER]
  {
    assert a.trail + [a.player] == [INITIAL_PLAYER, INITIAL_PLAYER];
  }

  /** The state a tick leaves before its fruit check. A tick that starts
      stopped is the position update and boundary policy alone; a tick that
      starts moving always ends in a fresh run, because either a wall reset it
      or its own head, just pushed onto the trail, is found by the scan. */
  lemma BeforeFruitShape(g: Game)
    requires g.tail >= 1
    ensures var b := BeforeFruit(g);
      && SameSettings(b, g)
      && (g.velocity == Zero ==> b == Advance(g))
      && (g.velocity != Zero ==>
            && b.player == INITIAL_PLAYER && b.velocity == Zero && b.lastAction == NoAction
            && b.points == 0 && b.tail == INITIAL_TAIL && b.reward == REWARD_RESET
            && (b.trail == [INITIAL_PLAYER] || b.trail == [INITIAL_PLAYER, INITIAL_PLAYER]))
  {
    var a := Advance(g);
    AdvanceShape(g);
    if g.velocity == Zero {
      assert a.velocity == Zero;
    } else {
      var p := UpdateTrail(a, false);
      assert BeforeFruit(g) == CheckSelfCollision(p).1;
      if Fresh(a) {
        FreshPushIsDoubleStart(a);
        assert CheckSelfCollision(p).1 == p;
      } else {
        assert p.trail == PushTrail(a.trail, a.player, a.tail);
        assert a.player in p.trail;
        assert CheckSelfCollision(p).1 == Reset(p);
      }
    }
  }

  /** Every tick keeps the structural invariant. */
  lemma TickPreservesValid(g: Game, pick: Point)
    requires Valid(g)
    ensures TickPickFits(g, pick) ==> Valid(Tick(g, pick))
  {
    BeforeFruitShape(g);
    AdvanceShape(g);
    var a := Advance(g);
    var b := BeforeFruit(g);
    if g.velocity == Zero {
      assert a.velocity == Zero;
      assert b == a;
      if !Fresh(a) {
        assert a.trail == g.trail && a.tail == g.tail;
        var moved := g.(reward := REWARD_STEP).(player := Add(g.player, g.velocity));
        assert a.lastAction == UpdateLastAction(moved).lastAction == g.lastAction;
      }
      assert Valid(b);
    } else {
      assert Valid(b);
    }
    if TickPickFits(g, pick) {
      assert Tick(g, pick) == CheckFruitCollision(b, pick);
    }
  }

  /** Every tick keeps the best score at or above the current one. */
  lemma TickPreservesScore(g: Game, pick: Point)
    requires ScoreConsistent(g) && g.tail >= 1
    ensures TickPickFits(g, pick) ==> ScoreConsistent(Tick(g, pick))
  {
    BeforeFruitShape(g);
  }

  /** After a tick the fruit is off the trail, provided it was before: a fruit
      that is eaten moves to a free cell, and a fruit left in place is either
      under an unchanged trail or away from the start cell the fresh trail
      occupies. */
  lemma TickPreservesFruitOffTrail(g: Game, pick: Point)
    requires FruitOffTrail(g) && g.tail >= 1
    ensures TickPickFits(g, pick) ==> FruitOffTrail(Tick(g, pick))
  {
    BeforeFruitShape(g);
  }

  /** On a wrap-around board every tick ends with the snake on the board, or
      back on the start cell after a reset; the start cell is itself on any
      board wider than 5 cells. */
  lemma WrapTickStaysOnBoard(g: Game, pick: Point)
    requires !g.walls && g.tileCount >= 1 && g.tail >= 1
    ensures TickPickFits(g, pick) ==>
      OnBoard(Tick(g, pick).player, g.tileCount) || Tick(g, pick).player == INITIAL_PLAYER
    ensures TickPickFits(g, pick) && g.tileCount > 5 ==> OnBoard(Tick(g, pick).player, g.tileCount)
  {
    BeforeFruitShape(g);
  }

  /** On a walled board every tick ends with the snake in the interior, or
      stopped on the start cell of a fresh run. */
  lemma WalledTickStaysInside(g: Game, pick: Point)
    requires g.walls && g.tail >= 1
    ensures TickPickFits(g, pick) ==>
      var r := Tick(g, pick);
      || InInterior(r.player, g.tileCount)
      || (r.player == INITIAL_PLAYER && r.velocity == Zero && r.lastAction == NoAction)
  {
    BeforeFruitShape(g);
  }

  /** A tick that starts stopped leaves the trail alone, unless a wall resets
      the run to its one-cell trail. */
  lemma StoppedTickKeepsTrail(g: Game, pick: Point)
    requires g.velocity == Zero && g.tail >= 1
    ensures TickPickFits(g, pick) ==>
      Tick(g, pick).trail == g.trail || (g.walls && Tick(g, pick).trail == [INITIAL_PLAYER])
  {
    BeforeFruitShape(g);
  }

  /** Leaving a walled board resets the run: the tick pays the reset reward,
      the score drops to zero and the best score is kept, as long as the fruit
      does not wait on the start cell. A snake that was moving still gets the
      start cell pushed, so its trail is the start cell twice. */
  lemma WalledExitResets(g: Game, pick: Point)
    requires g.walls && g.tail >= 1 && g.fruit != INITIAL_PLAYER
    requires !InInterior(Add(g.player, g.velocity), g.tileCount)
    ensures TickPickFits(g, pick)
    ensures var r := Tick(g, pick);
      r.reward == REWARD_RESET && r.points == 0 && r.pointsMax == g.pointsMax
      && r.player == INITIAL_PLAYER && r.velocity == Zero
    ensures g.velocity != Zero ==> Tick(g, pick).trail == [INITIAL_PLAYER, INITIAL_PLAYER]
  {
    BeforeFruitShape(g);
    var moved := g.(reward := REWARD_STEP).(player := Add(g.player, g.velocity));
    assert Advance(g) == Reset(UpdateLastAction(moved));
    FreshPushIsDoubleStart(Advance(g));
  }

  /** Leaving a walled board while the fruit waits on the start cell: the
      reset puts the head on the fruit, so the same tick eats it, scoring one
      point on a fresh run and paying the fruit reward instead of the reset
      cost. */
  lemma WalledExitEatsStartFruit(g: Game, pick: Point)
    requires g.walls && g.tail >= 1 && g.fruit == INITIAL_PLAYER
    requires !InInterior(Add(g.player, g.velocity), g.tileCount)
    ensures TickPickFits(g, pick) ==>
      var r := Tick(g, pick);
      && r.reward == REWARD_FRUIT && r.points == 1 && r.pointsMax == Max(g.pointsMax, 1)
      && r.player == INITIAL_PLAYER && r.velocity == Zero
  {
    BeforeFruitShape(g);
    var moved := g.(reward := REWARD_STEP).(player := Add(g.player, g.velocity));
    assert Advance(g) == Reset(UpdateLastAction(moved));
  }
}

=== FILE: tick.dfy ===
/**
 One tick of `gameLoop` with the drawing removed: the step reward, the position
 update, the commit of the last action, the boundary policy, the trail update,
 the self-collision check and the fruit check, in the order the game runs them.
 */
module SnakeTick {
  import opened SnakeGrid
  import opened SnakeGame
  import opened SnakeFruit

  /** `updateLastAction`: a unit velocity becomes the committed action; a
      stopped snake keeps the action it had. */
  function UpdateLastAction(g: Game): (r: Game)
    ensures forall d :: g.velocity == Unit(d) ==> r.lastAction == Moved(d)
    ensures !IsVelocity(g.velocity) || g.velocity == Zero ==> r == g
    ensures r == g.(lastAction := r.lastAction)
    ensures IsVelocity(g.velocity) ==> NotReversing(r)
  {
    var a0 := g.lastAction;
    var a1 := if g.velocity == Point(0, -1) then Moved(Up) else a0;
    var a2 := if g.velocity == Point(0, 1) then Moved(Down) else a1;
    var a3 := if g.velocity == Point(-1, 0) then Moved(Left) else a2;
    var a4 := if g.velocity == Point(1, 0) then Moved(Right) else a3;
    g.(lastAction := a4)
  }

  /** Wrap-around on one axis: below the board goes to the last cell, past it
      goes to the first, however far outside the coordinate is. A coordinate
      at most one step outside lands where arithmetic modulo the board size
      puts it. */
  function WrapCoord(c: int, n: int): (r: int)
    ensures n >= 1 ==> 0 <= r < n
    ensures n >= 1 && c < 0 ==> r == n - 1
    ensures n >= 1 && c >= n ==> r == 0
    ensures 0 <= c < n ==> r == c
    ensures n >= 1 && -1 <= c <= n ==> r == c % n
  {
    var c1 := if c < 0 then n - 1 else c;
    if c1 >= n then 0 else c1
  }

  /** Wrap-around of a whole cell, axis by axis. */
  function Wrap(p: Point, n: int): Point
  {
    Point(WrapCoord(p.x, n), WrapCoord(p.y, n))
  }

  /** The walled board's playable cells. */
  predicate InInterior(p: Point, n: int)
  {
    InBox(p, 1, n - 2)
  }

  /** The cells of the board. */
  predicate OnBoard(p: Point, n: int)
  {
    InBox(p, 0, n - 1)
  }

  /** `handleWallCollision`: on a walled board, leaving the interior resets the
      run; otherwise each coordinate wraps and nothing else changes. */
  function HandleWallCollision(g: Game): (r: Game)
    ensures g.walls ==> InInterior(r.player, g.tileCount) || r == Reset(g)
    ensures g.walls && InInterior(g.player, g.tileCount) ==> r == g
    ensures g.walls && !InInterior(g.player, g.tileCount) ==> r == Reset(g)
    ensures !g.walls ==> r == g.(player := r.player)
    ensures !g.walls ==> r.player == Point(WrapCoord(g.player.x, g.tileCount), WrapCoord(g.player.y, g.tileCount))
    ensures !g.walls && g.tileCount >= 1 ==> OnBoard(r.player, g.tileCount)
    ensures !g.walls && OnBoard(g.player, g.tileCount) ==> r == g
    ensures !g.walls && g.tileCount >= 1 && InBox(g.player, -1, g.tileCount) ==>
              r.player == Point(g.player.x % g.tileCount, g.player.y % g.tileCount)
  {
    if g.walls then
      if InInterior(g.player, g.tileCount) then g else Reset(g)
    else
      g.(player := Wrap(g.player, g.tileCount))
  }

  /** The `shift` loop: drop the oldest cells until at most `n` remain. What is
      left is the newest `min(|t|, n)` cells, in order. */
  function TrimFront(t: seq<Point>, n: nat): (r: seq<Point>)
    ensures |r| == Min(|t|, n)
    ensures r == t[|t| - |r|..]
    decreases |t|
  {
    if |t| > n then
      var r := TrimFront(t[1..], n);
      assert t[1..][|t| - 1 - |r|..] == t[|t| - |r|..];
      r
    else
      t
  }

  /** Appends the head and trims: the head is the newest cell whenever the
      target length is positive, and the trail never exceeds the target. */
  function PushTrail(t: seq<Point>, head: Point, n: nat): (r: seq<Point>)
    ensures |r| == Min(|t| + 1, n)
    ensures n >= 1 ==> |r| >= 1 && r[|r| - 1] == head
    ensures r == (t + [head])[|t| + 1 - |r|..]
  {
    TrimFront(t + [head], n)
  }

  /** The trail update of a tick, given whether the tick started stopped: a
      moving tick appends the player and keeps the newest `tail` cells. */
  function UpdateTrail(g: Game, stopped: bool): (r: Game)
    ensures stopped ==> r == g
    ensures !stopped ==> r == g.(trail := r.trail)
    ensures !stopped ==> |r.trail| == Min(|g.trail| + 1, g.tail)
    ensures !stopped && g.tail >= 1 ==> r.trail[|r.trail| - 1] == g.player
  {
    if stopped then g else g.(trail := PushTrail(g.trail, g.player, g.tail))
  }

  /** What a moving tick's trail holds: the newest cells of the old trail with
      the player appended, so only the cells over the tail length are lost. */
  lemma UpdateTrailKeepsNewest(g: Game)
    ensures var t := UpdateTrail(g, false).trail;
      t == (g.trail + [g.player])[|g.trail| + 1 - |t|..]
  {
  }

  /** `checkSelfCollision`: a moving snake whose head is on a trail cell resets;
      the flag says whether it did. A stopped snake is never checked. */
  function CheckSelfCollision(g: Game): (res: (bool, Game))
    ensures g.velocity == Zero ==> res == (false, g)
    ensures g.velocity != Zero ==> (res.0 <==> g.player in g.trail)
    ensures res.1 == if res.0 then Reset(g) else g
  {
    if g.velocity != Zero && g.player in g.trail then (true, Reset(g)) else (false, g)
  }

  /** The precondition on the injected fruit cell: it matters only on a hit,
      and then it is a free cell of the fruit range, which the re-roll loop can
      stop at whenever that range is not empty. */
  predicate FruitPickFits(g: Game, pick: Point)
  {
    g.player == g.fruit ==> FreeCell(g.walls, g.tileCount, g.trail, pick)
  }

  /** `checkFruitCollision`: eating the fruit scores one point, raises the best
      score to match, grows the tail unless it is fixed, pays the fruit reward
      and places the next fruit on a free cell in range. */
  function CheckFruitCollision(g: Game, pick: Point): (r: Game)
    requires FruitPickFits(g, pick)
    ensures g.player != g.fruit ==> r == g
    ensures g.player == g.fruit ==>
              && r.points == g.points + 1
              && r.pointsMax == Max(g.pointsMax, r.points)
              && r.tail == g.tail + (if g.fixedTail then 0 else 1)
              && r.reward == REWARD_FRUIT
              && InFruitRange(r.walls, r.tileCount, r.fruit)
              && r.fruit !in r.trail
    ensures r == g.(points := r.points, pointsMax := r.pointsMax, tail := r.tail,
                    reward := r.reward, fruit := r.fruit)
    ensures ScoreConsistent(g) ==> ScoreConsistent(r)
    ensures FruitOffTrail(g) ==> FruitOffTrail(r)
  {
    if g.player == g.fruit then
      var points := g.points + 1;
      g.(tail := if g.fixedTail then g.tail else g.tail + 1,
         points := points,
         pointsMax := if points > g.pointsMax then points else g.pointsMax,
         reward := REWARD_FRUIT,
         fruit := pick)
    else
      g
  }

  /** The first half of a tick: the step reward, the position update, the commit
      of the last action, and the boundary policy. */
  function Advance(g: Game): Game
  {
    var charged := g.(reward := REWARD_STEP);
    var moved := charged.(player := Add(charged.player, charged.velocity));
    HandleWallCollision(UpdateLastAction(moved))
  }

  /** A tick up to the fruit check. `stopped` is sampled before anything moves,
      so a run reset by a wall still gets the start cell pushed; the flag of
      the self-collision check is dropped. */
  function BeforeFruit(g: Game): Game
  {
    var stopped := g.velocity == Zero;
    CheckSelfCollision(UpdateTrail(Advance(g), stopped)).1
  }

  /** The condition under which a tick can place its next fruit at `pick`. */
  predicate TickPickFits(g: Game, pick: Point)
  {
    FruitPickFits(BeforeFruit(g), pick)
  }

  /** `gameLoop` without drawing; the reward it returns is the new state's
      `reward`. */
  function Tick(g: Game, pick: Point): (r: Game)
    requires TickPickFits(g, pick)
    ensures r.reward in {REWARD_STEP, REWARD_FRUIT, REWARD_RESET}
    ensures r.reward == REWARD_FRUIT <==> BeforeFruit(g).player == BeforeFruit(g).fruit
    ensures r.walls == g.walls && r.fixedTail == g.fixedTail && r.tileCount == g.tileCount
  {
    CheckFruitCollision(BeforeFruit(g), pick)
  }
}
